=== FILE: README.md ===
# bladeRF sink: buffer pipeline model

A Dafny model of the transmit-side buffer pipeline of the gr-osmosdr bladeRF
sink block (`bladerf_sink_c`). The block takes complex samples from a GNU Radio
flowgraph and writes them as SC16 Q12 values (two `int16_t`, I then Q) into a
pool of N transfer buffers. A callback of the libbladeRF transfer engine drains
the pool. The model covers:

- **Stream configuration** (`SinkConfig`). The constructor turns the optional
  `buffers`, `buflen` and `transfers` device arguments into a legal triple:
  - at least 2 buffers, with 32 as the default;
  - a buffer length in samples (bytes / 4) that is at least 1024 and a multiple
    of 1024, with 4096 as the default;
  - at most half the buffers in flight.

  A missing argument reads as 0, which is how the source initialises the
  variables it parses into.
- **Slot lookup** (`BufferLookup.BufferToIndex`). This is `buffer2index`: a
  linear search of the pool for the buffer the hardware handed back.
- **Wire layout** (`SampleFormat`). `Interleave` gives the I/Q layout, with its
  inverse `Deinterleave`.
- **Slot bookkeeping** (`SinkPipeline.BladerfSink`). A class with these fields:
  - the `filled` flag array;
  - the producer cursor `bufIndex` (`_buf_index`) and the consumer cursor
    `nextToTx` (`_next_to_tx`);
  - the write position `nextValue` (`_next_value`, an offset into the current
    buffer) and the free count `samplesLeft` (`_samples_left`);
  - the `running` flag.

  `work` is split along the source's own structure:
  - `Fill` is the outer loop;
  - `CopySamples` is the inner loop, and `WriteSample` is one pass of it;
    `StageSamples` is `CopySamples` together with the proof that the slot's
    contents still match the history;
  - `AdvanceSlot` is the locked rotation block, and `CloseSlot` is the same
    block with that proof.

  `GetNextBuffer` is `get_next_buffer`, and `Handover` is its second half.

Buffers are `array<Int16>` references. Comparing them is comparing pointers, as
`buffer2index` does. The pool itself comes from the transfer engine's
initialisation (foreign code), so it is a constructor parameter.

Threads are not modelled. Each condition-variable wait becomes a "blocked"
outcome (`ProducerBlocked`, `ConsumerBlocked`), and a ghost flag records that
the thread is parked there. The parked producer's input block and sample count
are kept in ghost fields, and its wake-up must resume from exactly there. A
wake-up method (`ProducerWake`, `ConsumerWake`) re-checks the wait condition
exactly as the source's wait loop does. `ShutDown` is the destructor's sequence:
clear `running`, then wake both waits (`NotifyConsumer` for `_samp_avail`,
then `NotifyProducer` for `_buffer_emptied`).

The transfer engine (libbladeRF's `bladerf_stream`) is not part of this model.
Its side of the stream-callback protocol is stated as the preconditions of
`GetNextBuffer`:
- it starts a transfer (passing NULL) only while it holds fewer than
  `transfers` buffers;
- it gives pool buffers back in the order it received them.

Ghost fields track the ring this protocol produces: `head` (the oldest buffer
the engine holds), `inFlight` (how many it holds) and `ready` (filled slots not
yet handed over). The invariant `Ring` says that going round from `head`, the
filled slots are exactly the `inFlight` held slots followed by the `ready`
slots, with the consumer cursor after the held ones and the producer cursor
after the ready ones. From it, `WaitConditions` shows that the producer's wait
and the consumer's wait never hold at the same time. A second ghost field,
`written`, records every sample the producer has consumed, in order. A third,
`staged`, holds the samples written into the producer's current slot. A
fourth, `slotsFilled`, counts the slots the producer has filled. The invariant
`Staged` says three things:
- `staged` is the latest part of `written`;
- everything before it in `written` filled whole slots: `written` has
  `slotsFilled` × samples_per_buffer samples more than `staged`;
- the slot holds, up to the write position, the interleaved layout of `staged`.

Two behaviours are modelled as the code has them:
- When the running flag has turned false, `work` returns 0 even after a partial
  copy. It does not report the partial count.
- A returned buffer that is not in the pool makes `buffer2index` throw out of
  the stream callback. The model reports this as `UnknownBuffer` and changes
  nothing.

The integer widths assume an LP64 host: `size_t` is 64 bits and
`unsigned int` is 32 bits. `_num_buffers` and `_samples_per_buffer` are taken to
be `size_t`. The class header that declares them is not part of this model.
On a host with a 32-bit `size_t`, `boost::lexical_cast<size_t>` throws for a
request of 2^32 or more. The narrowing in the first finding then cannot happen.

## Model

| member | source | states |
|---|---|---|
| SinkConfig.NumBuffers | lib/bladerf/bladerf_sink_c.cc:178-182 | the count is at least 2; it equals the request exactly when the request is 2 or more, and otherwise it is the default 32 |
| SinkConfig.SamplesPerBuffer | lib/bladerf/bladerf_sink_c.cc:184-192 | the result is at least 1024 and a multiple of 1024; a buflen of 0 gives 4096; the result is buflen/4 exactly when buflen is nonzero and buflen/4 is legal, and otherwise it is 4096 |
| SinkConfig.SamplesPerBufferOfByteLength | lib/bladerf/bladerf_sink_c.cc:184-192 | asking for the byte length of a legal buffer, plus up to 3 stray bytes, gives that buffer length back |
| SinkConfig.Transfers | lib/bladerf/bladerf_sink_c.cc:196-199 | corrected form: for N ≥ 2 buffers, 1 ≤ transfers ≤ N/2; the request is kept exactly when it is within [1, N/2], and otherwise the result is N/2 |
| SinkConfig.TransfersAsWritten | lib/bladerf/bladerf_sink_c.cc:173-199 | as written, with both values narrowed to `unsigned int`: never above N/2; when N < 2^33 it equals the corrected clamp applied to the request modulo 2^32 |
| SinkConfig.TransfersAsWrittenKeepsWrappedRequest | lib/bladerf/bladerf_sink_c.cc:173-176 | the request 2^32+1 with 32 buffers gives 1 transfer as written, where the clamp gives 16 |
| SinkConfig.TransfersAsWrittenCanBeZero | lib/bladerf/bladerf_sink_c.cc:196-197 | with 2^33 buffers, an unset request gives 0 transfers as written, where the clamp gives 2^32 |
| SinkConfig.Configure | lib/bladerf/bladerf_sink_c.cc:162-199 | corrected form (it uses the corrected transfer clamp): the triple is always legal (≥ 2 buffers, legal length, 1 ≤ transfers ≤ N/2); in-flight transfers never outnumber the idle buffers |
| SinkConfig.ConfigureIsIdempotent | lib/bladerf/bladerf_sink_c.cc:178-199 | validating an already validated triple (its length given back in bytes) leaves it unchanged |
| BufferLookup.BufferToIndex | lib/bladerf/bladerf_sink_c.cc:272-281 | returns the smallest i with buffers[i] == current, and fails exactly when no slot matches |
| SampleFormat.Interleave | lib/bladerf/bladerf_sink_c.cc:345-350 | n samples take exactly 2n `int16_t` values |
| SampleFormat.InterleaveAt | lib/bladerf/bladerf_sink_c.cc:345-350 | sample k's I is at position 2k and its Q at position 2k+1 |
| SampleFormat.InterleaveAppend | lib/bladerf/bladerf_sink_c.cc:343-356 | two runs written one after the other are laid out back to back |
| SampleFormat.DeinterleaveInterleave | lib/bladerf/bladerf_sink_c.cc:345-350 | reading the layout back gives the samples: the layout loses nothing |
| SinkPipeline.WrittenWindowIsInterleaved | lib/bladerf/bladerf_sink_c.cc:343-356 | the slot window written sample by sample, I then Q, is the interleaved layout of the consumed input |
| SinkPipeline.NextSlot | lib/bladerf/bladerf_sink_c.cc:364 | the cursor advance gives a slot of the ring again |
| SinkPipeline.NextSlotIsModulo | lib/bladerf/bladerf_sink_c.cc:307 | the cursor advance is `(i + 1) % N`, as both cursors are advanced (lines 307 and 364) |
| SinkPipeline.RingFlagsFill | lib/bladerf/bladerf_sink_c.cc:363 | setting the flag of the producer's slot, the first slot past the taken run, makes the run one slot longer, with the same origin |
| SinkPipeline.RingFlagsRelease | lib/bladerf/bladerf_sink_c.cc:296 | clearing the flag of the oldest held slot moves the origin of the run one slot on and makes the run one slot shorter |
| SinkPipeline.RingCursorsFill | lib/bladerf/bladerf_sink_c.cc:363-366 | after the producer fills its slot and advances, the producer cursor is again just past the ready run, now one longer |
| SinkPipeline.RingCursorsSubmit | lib/bladerf/bladerf_sink_c.cc:305-307 | after the consumer hands a ready slot over and advances, its cursor is again just past the held run, now one longer, and the ready run is one shorter |
| SinkPipeline.RingCursorsRelease | lib/bladerf/bladerf_sink_c.cc:293-297 | after the oldest held buffer comes back, both cursors keep their place relative to the new origin |
| SinkPipeline.RingWaits | lib/bladerf/bladerf_sink_c.cc:301-303 | the producer's slot is filled exactly when every slot is taken; the consumer's slot is filled exactly when some slot is ready; while fewer than N buffers are held, the two wait conditions never hold together |
| SinkPipeline.BladerfSink.WaitConditions | lib/bladerf/bladerf_sink_c.cc:373-376 | in every reachable state the producer waits exactly when the pool is full, the consumer waits exactly when nothing is ready, and the two waits never hold together, so two parked threads never wait on each other |
| SinkPipeline.BladerfSink.constructor | lib/bladerf/bladerf_sink_c.cc:209-227 | after initialisation all N flags are false, both cursors are 0, the write position is the start of slot 0, samplesLeft = samples_per_buffer, running is true, the engine holds nothing, nothing has been written and no slot has been filled |
| SinkPipeline.BladerfSink.Stop | lib/bladerf/bladerf_sink_c.cc:326 | running becomes false; no other method sets it, and every other method leaves it unchanged |
| SinkPipeline.BladerfSink.WriteSample | lib/bladerf/bladerf_sink_c.cc:345-355 | one sample writes I then Q at the write position, and nothing else; the position advances by 2 and samplesLeft drops by 1 |
| SinkPipeline.BladerfSink.CopySamples | lib/bladerf/bladerf_sink_c.cc:343-356 | consumes min(samplesLeft, remaining) samples, and only into an unfilled slot; each sample takes one off samplesLeft and adds 2 to the position; the written window is Interleave of the consumed samples, which are appended to the history; the rest of the slot, the other slots and the flags are unchanged |
| SinkPipeline.BladerfSink.StageSamples | lib/bladerf/bladerf_sink_c.cc:343-356 | as CopySamples, and the slot still holds, up to the new write position, the layout of all samples written into it, which are the latest ones of the history |
| SinkPipeline.StagedAppend | lib/bladerf/bladerf_sink_c.cc:343-356 | a chunk's layout written just past the layout of the staged samples gives the layout of the staged samples followed by the chunk |
| SinkPipeline.BladerfSink.AdvanceSlot | lib/bladerf/bladerf_sink_c.cc:359-377 | the flag of the full slot becomes true and no other flag changes; bufIndex advances by 1 modulo N; the position resets to the new slot's start and samplesLeft to samples_per_buffer; the slot joins the ready run; the producer must wait exactly when the new slot is filled and the stream is running |
| SinkPipeline.BladerfSink.CloseSlot | lib/bladerf/bladerf_sink_c.cc:359-377 | as AdvanceSlot, and the slot just closed held exactly samples_per_buffer samples of the history; one more slot has been filled, nothing is staged in the new one, so the slot contents still match the history |
| SinkPipeline.BladerfSink.FillStep | lib/bladerf/bladerf_sink_c.cc:343-377 | one pass of the outer loop consumes min(samplesLeft, remaining) samples, at least one, and appends exactly those to the history; their layout lands in the producer's slot at the old write position; if that fills the slot, the slot is marked filled, bufIndex advances by 1 modulo N, the slot joins the ready run and a wait is reported exactly when the next slot is filled; otherwise the cursor and the ready run stay and samplesLeft drops by the count; a filled slot stays filled and its data is untouched; the producer's old slot holds, from its start, the layout of the samples staged in it before followed by the ones just consumed; the ready run grows by exactly the number of slots filled (0 or 1); the slot contents match the history after the pass |
| SinkPipeline.BladerfSink.Fill | lib/bladerf/bladerf_sink_c.cc:341-381 | if running is false, nothing changes and the result is 0; otherwise it returns noutput_items having consumed all of its input, or it blocks at a filled next slot while running, having consumed exactly the input up to the reported count; a filled slot stays filled and its data is never overwritten; the ready run grows by exactly the number of slots filled, each of which took samples_per_buffer samples of the history; the producer's slot holds the layout of the latest samples of the history |
| SinkPipeline.BladerfSink.Work | lib/bladerf/bladerf_sink_c.cc:329-382 | returns noutput_items with the whole block consumed if running, and 0 with nothing changed otherwise; or blocks at a filled slot while running, having consumed exactly the first `consumed` samples; no filled slot's data is overwritten; the ready run grows by exactly the number of slots filled, each of which took samples_per_buffer samples of the history; the producer's slot holds the layout of the latest samples of the history |
| SinkPipeline.BladerfSink.ProducerWake | lib/bladerf/bladerf_sink_c.cc:371-381 | resumes only where the producer parked; it stays parked, with nothing changed, while its slot is filled and the stream is running; once the stream has stopped it leaves the wait and returns 0 with the flags, the slot data, its cursor, write position and free count, the history and the ready run unchanged; otherwise it carries on as Fill does from the parked count, and the ready run grows by exactly the number of slots filled |
| SinkPipeline.BladerfSink.Handover | lib/bladerf/bladerf_sink_c.cc:300-310 | if running and the slot at nextToTx is filled: hands over buffers[nextToTx], advances nextToTx by 1 modulo N and moves that slot from the ready run to the engine; if running and that slot is unfilled: blocks with nextToTx unchanged; if not running: NULL, with nextToTx unchanged |
| SinkPipeline.BladerfSink.MarkEmptied | lib/bladerf/bladerf_sink_c.cc:292-298 | a returned pool buffer has its slot's flag cleared, and no other flag changes; NULL changes nothing; it fails, with nothing changed, exactly when the buffer is not in the pool |
| SinkPipeline.BladerfSink.GetNextBuffer | lib/bladerf/bladerf_sink_c.cc:284-314 | fails with nothing changed exactly when the returned buffer is not NULL and not in the pool; otherwise that buffer's flag is cleared, no other flag changes, and the call hands over as Handover does |
| SinkPipeline.BladerfSink.ConsumerWake | lib/bladerf/bladerf_sink_c.cc:300-303 | the woken consumer re-checks its wait and hands over as Handover does: a handover moves one slot from the ready run to the engine, and otherwise both runs stay as they were |
| SinkPipeline.ShutDown | lib/bladerf/bladerf_sink_c.cc:238-243 | after running is cleared and both waits are woken, a parked producer returns 0 and a parked consumer returns NULL, and neither stays blocked; the flags, the slot data, both cursors, the write position and free count, the history and both runs are as before |
| SinkPipeline.NotifyConsumer | lib/bladerf/bladerf_sink_c.cc:242 | once the stream has stopped, a parked consumer leaves its wait and hands over NULL, with its cursor and both runs unchanged; with none parked nothing happens |
| SinkPipeline.NotifyProducer | lib/bladerf/bladerf_sink_c.cc:243 | once the stream has stopped, a parked producer leaves its wait and returns 0, with the flags, the slot data, its cursor, write position and free count, the history and the ready run unchanged; with none parked nothing happens |

## Left out

- The two threads, the mutex, the condition variables and `_thread.join()`. Waits are modelled as blocked outcomes plus wake-up methods; the interleaving of the two threads is not modelled.
- The float-to-`int16_t` conversion `(int16_t)(x * 2000)`. It is floating point with an unchecked narrowing cast, so the input is a sequence of already converted I/Q pairs.
- All libbladeRF calls: device open, firmware flash, FPGA load, serial and version queries, `bladerf_init_stream`, `bladerf_stream`, `deinit`, module enable and disable, and the sample-rate, frequency, bandwidth and gain get/set calls. They are foreign code. The buffer pool they allocate is a constructor parameter, required to hold N distinct buffers of 2 × samples_per_buffer values.
- A failed `bladerf_init_stream`. The source logs it and then dereferences `_buffers[0]`, which is undefined behaviour. The model requires an allocated pool.
- `params_to_dict` and the `boost::lexical_cast` parsing. The parsed numbers are inputs, and a missing key is 0.
- The `_filled` allocation check. `new` throws rather than returning null, so that branch never runs.
- The gain-range clipping in `set_bb_gain`, which uses doubles. Also the fixed getters: antenna "TX", 1 channel, and the frequency-correction stub.
- SinkPipeline.BladerfSink.Work: states which samples were consumed and that they are appended in order to the history, that the ready run grows by exactly the number of slots filled, each holding samples_per_buffer samples of the history, that no filled slot is overwritten, and that the producer's current slot holds the layout of the latest samples. It does not state which earlier chunk of the history each slot filled during the call holds. FillStep states that for the slot it fills.
- SinkPipeline.BladerfSink.Fill: weaker in the same way as Work.
- SinkPipeline.BladerfSink.ProducerWake: weaker in the same way as Work.
- The order in which the engine gives buffers back. The model requires it to be the order they were handed over, which is what one USB bulk endpoint does. An engine that completes transfers out of order is outside the model, and so are the ring invariant and WaitConditions for it.
- The `notify_one` calls in `work` and in the stream callback (lines 297 and 369). No method forces a parked thread to wake up there; WaitConditions shows that whenever both are parked, at least one of the two, when woken, goes on. The destructor's `notify_all` calls are modelled by NotifyConsumer and NotifyProducer.
- SinkPipeline.BladerfSink.GetNextBuffer: a buffer not in the pool makes the source throw through C code, which ends the program. The model returns `UnknownBuffer` with the state unchanged.
- The local `running` copy in `work` is read from the field. In a sequential model nothing can change the field during `work` except at a wait, and `ProducerWake` re-reads it there, as the source does. So `Fill` tests it once, before its loop.

## Findings

| source | as written | input that shows it | evidently intended | confidence | as-written member | corrected member |
|---|---|---|---|---|---|---|
| lib/bladerf/bladerf_sink_c.cc:173-176 | `unsigned int transfers` receives a `size_t` parse, so the request is reduced modulo 2^32 before it is clamped | buffers=32, transfers=4294967297: 1 transfer (SinkConfig.TransfersAsWrittenKeepsWrappedRequest) | a request above buffers/2 is clamped to 16 | low, not executed | SinkConfig.TransfersAsWritten | SinkConfig.Transfers |
| lib/bladerf/bladerf_sink_c.cc:196-197 | `transfers = _num_buffers / 2` narrows half the count to 32 bits | buffers=8589934592, transfers unset: 0 transfers (SinkConfig.TransfersAsWrittenCanBeZero) | buffers/2 transfers, which is at least 1 | low (a pool that large cannot be allocated), not executed | SinkConfig.TransfersAsWritten | SinkConfig.Transfers |

=== FILE: config.dfy ===
/**
 * Stream configuration of the bladeRF sink: the constructor turns the
 * optional device arguments "buffers", "buflen" and "transfers" into the
 * triple (buffer count, samples per buffer, transfer count) that is handed
 * to the transfer engine. An argument that is absent reads as 0, exactly as
 * the variables it would be parsed into are initialised to 0.
 */
module SinkConfig {

  /** C `size_t` on a 64-bit host. */
  type SizeT = x: int | 0 <= x < 0x1_0000_0000_0000_0000

  /** C `unsigned int`. */
  type UInt = x: int | 0 <= x < 0x1_0000_0000

  const UIntModulus: nat := 0x1_0000_0000

  /** NUM_BUFFERS: the buffer count used when the request is unusable. */
  const DefaultBuffers: nat := 32

  /** NUM_SAMPLES_PER_BUFFER: the buffer length used when the request is unusable. */
  const DefaultSamplesPerBuffer: nat := 4096

  /** One SC16 Q12 sample is two `int16_t` values. */
  const BytesPerSample: nat := 4

  /** Buffer lengths must be whole multiples of this many samples. */
  const SampleGranule: nat := 1024

  predicate LegalSamplesPerBuffer(s: int)
  {
    s >= SampleGranule && s % SampleGranule == 0
  }

  datatype StreamConfig = StreamConfig(numBuffers: SizeT, samplesPerBuffer: SizeT, transfers: SizeT)

  /** What the transfer engine is promised: at least two buffers, a legal
      buffer length, and at most half the buffers in flight at once. */
  predicate ValidConfig(c: StreamConfig)
  {
    c.numBuffers >= 2
    && LegalSamplesPerBuffer(c.samplesPerBuffer)
    && 1 <= c.transfers <= c.numBuffers / 2
  }

  /** The buffer count: a request of 2 or more is kept, anything else
      (unset, 0 or 1) becomes the default. */
  function NumBuffers(requested: SizeT): (n: SizeT)
    ensures n >= 2
    ensures n == requested <==> requested >= 2
    ensures n != requested ==> n == DefaultBuffers
  {
    if requested <= 1 then DefaultBuffers else requested
  }

  /** The buffer length in samples, from a requested length in bytes. */
  function SamplesPerBuffer(buflen: SizeT): (s: SizeT)
    ensures LegalSamplesPerBuffer(s)
    ensures buflen == 0 ==> s == DefaultSamplesPerBuffer
    ensures s == buflen / BytesPerSample <==> buflen != 0 && LegalSamplesPerBuffer(buflen / BytesPerSample)
    ensures s != buflen / BytesPerSample ==> s == DefaultSamplesPerBuffer
  {
    if buflen == 0 then
      DefaultSamplesPerBuffer
    else
      var samples := buflen / BytesPerSample;
      if samples < SampleGranule || samples % SampleGranule != 0 then DefaultSamplesPerBuffer else samples
  }

  /** Requesting the byte length of a legal buffer (plus up to three stray
      bytes, which the division drops) gives back that buffer length. */
  lemma SamplesPerBufferOfByteLength(samples: nat, extra: nat)
    requires LegalSamplesPerBuffer(samples) && extra < BytesPerSample
    requires samples * BytesPerSample + extra < 0x1_0000_0000_0000_0000
    ensures SamplesPerBuffer(samples * BytesPerSample + extra) == samples
  {
  }

  /** The transfer count as the evident intent has it: a request of 0 or one
      above half the buffer count is clamped to half the buffer count. */
  function Transfers(requested: SizeT, numBuffers: SizeT): (t: SizeT)
    requires numBuffers >= 2
    ensures 1 <= t <= numBuffers / 2
    ensures t == requested <==> 1 <= requested <= numBuffers / 2
    ensures t != requested ==> t == numBuffers / 2
  {
    if requested == 0 || requested > numBuffers / 2 then numBuffers / 2 else requested
  }

  /** The transfer count as the constructor computes it: the parsed `size_t`
      is stored in an `unsigned int`, and so is half the buffer count, so both
      are reduced modulo 2^32. */
  function TransfersAsWritten(requested: SizeT, numBuffers: SizeT): (t: UInt)
    ensures t <= numBuffers / 2
    ensures 2 <= numBuffers < 2 * UIntModulus ==> t == Transfers(requested % UIntModulus, numBuffers)
  {
    var narrowed := requested % UIntModulus;
    if narrowed == 0 || narrowed > numBuffers / 2 then (numBuffers / 2) % UIntModulus else narrowed
  }

  /** A request above half the buffer count that is congruent to 1 modulo
      2^32 is kept as 1 instead of being clamped. */
  lemma TransfersAsWrittenKeepsWrappedRequest()
    ensures TransfersAsWritten(UIntModulus + 1, 32) == 1
    ensures Transfers(UIntModulus + 1, 32) == 16
  {
  }

  /** With 2^33 buffers, half the count wraps to 0 transfers. */
  lemma TransfersAsWrittenCanBeZero()
    ensures TransfersAsWritten(0, 2 * UIntModulus) == 0
    ensures Transfers(0, 2 * UIntModulus) == UIntModulus
  {
  }

  /** The whole validation step: three requests in, a legal triple out. */
  function Configure(buffers: SizeT, buflen: SizeT, transfers: SizeT): (c: StreamConfig)
    ensures ValidConfig(c)
    ensures c.numBuffers == NumBuffers(buffers)
    ensures c.samplesPerBuffer == SamplesPerBuffer(buflen)
    ensures c.transfers == Transfers(transfers, c.numBuffers)
    ensures c.transfers <= c.numBuffers - c.transfers
  {
    var n := NumBuffers(buffers);
    StreamConfig(n, SamplesPerBuffer(buflen), Transfers(transfers, n))
  }

  /** Validation is idempotent: a validated triple fed back in unchanged. */
  lemma ConfigureIsIdempotent(buffers: SizeT, buflen: SizeT, transfers: SizeT)
    ensures var c := Configure(buffers, buflen, transfers);
      Configure(c.numBuffers, c.samplesPerBuffer * BytesPerSample, c.transfers) == c
  {
  }
}

=== FILE: lookup.dfy ===
/**
 * Resolving a buffer handed back by the transfer engine to its slot in the
 * pool. Buffers are opaque identities compared for equality only, as the
 * source compares raw pointers.
 */
module BufferLookup {

  import opened Optional

  /** buffer2index: the first slot holding `current`, or None when no slot
      does (the source throws "Has hit unexpected condition"). */
  method BufferToIndex<T(==)>(buffers: seq<T>, current: T) returns (r: Option<nat>)
    ensures r.Some? <==> current in buffers
    ensures r.Some? ==> r.value < |buffers| && buffers[r.value] == current
    ensures r.Some? ==> forall j :: 0 <= j < r.value ==> buffers[j] != current
  {
    var i := 0;
    while i < |buffers|
      invariant 0 <= i <= |buffers|
      invariant forall j :: 0 <= j < i ==> buffers[j] != current
    {
      if buffers[i] == current {
        return Some(i);
      }
      i := i + 1;
    }
    return None;
  }
}

=== FILE: optional.dfy ===
/** The usual Some/None datatype, used for results that can fail. */
module Optional {

  datatype Option<+T> = None | Some(value: T)

}

=== FILE: sample_format.dfy ===
/**
 * The SC16 Q12 wire format the sink writes into transfer buffers: each
 * complex sample becomes two signed 16-bit values, I first and then Q.
 */
module SampleFormat {

  /** C `int16_t`. */
  newtype Int16 = x: int | -0x8000 <= x < 0x8000

  /** One input sample after scaling to fixed point: its I and Q parts. */
  datatype IQ = IQ(i: Int16, q: Int16)

  /** The interleaved layout of a run of samples: I0, Q0, I1, Q1, ... */
  function Interleave(xs: seq<IQ>): (w: seq<Int16>)
    ensures |w| == 2 * |xs|
  {
    if xs == [] then [] else [xs[0].i, xs[0].q] + Interleave(xs[1..])
  }

  /** Sample k of the run sits at positions 2k (I) and 2k + 1 (Q). */
  lemma {:induction false} InterleaveAt(xs: seq<IQ>, k: nat)
    requires k < |xs|
    ensures Interleave(xs)[2 * k] == xs[k].i
    ensures Interleave(xs)[2 * k + 1] == xs[k].q
  {
    if k > 0 {
      InterleaveAt(xs[1..], k - 1);
      assert Interleave(xs) == [xs[0].i, xs[0].q] + Interleave(xs[1..]);
    }
  }

  /** Writing two runs one after the other lays them out back to back. */
  lemma {:induction false} InterleaveAppend(xs: seq<IQ>, ys: seq<IQ>)
    ensures Interleave(xs + ys) == Interleave(xs) + Interleave(ys)
  {
    if xs == [] {
      assert xs + ys == ys;
    } else {
      assert (xs + ys)[1..] == xs[1..] + ys;
      InterleaveAppend(xs[1..], ys);
    }
  }

  /** Reading the layout back: every even position an I, every odd one a Q. */
  function Deinterleave(w: seq<Int16>): (xs: seq<IQ>)
    requires |w| % 2 == 0
    ensures |xs| == |w| / 2
  {
    if w == [] then [] else [IQ(w[0], w[1])] + Deinterleave(w[2..])
  }

  /** The layout loses nothing: reading back what was written gives the samples. */
  lemma {:induction false} DeinterleaveInterleave(xs: seq<IQ>)
    ensures Deinterleave(Interleave(xs)) == xs
  {
    if xs != [] {
      var w := Interleave(xs);
      assert w[2..] == Interleave(xs[1..]);
      DeinterleaveInterleave(xs[1..]);
    }
  }
}

=== FILE: sink.dfy ===
/**
 * The slot bookkeeping of the bladeRF sink: a pool of N transfer buffers with
 * a parallel "filled" flag per slot, the producer cursor (the slot `work`
 * writes), the consumer cursor (the slot the stream callback hands to the
 * hardware next), the producer's write position inside its slot and the
 * number of samples still free there, and the running flag.
 *
 * The two threads are not modelled. Each condition-variable wait becomes a
 * "blocked" outcome that records, in a ghost flag, that the thread is parked
 * at its wait; a separate wake-up method re-checks the wait condition exactly
 * as the source's wait loop does, and continues if it no longer holds.
 */
module SinkPipeline {

  import opened Optional
  import opened SinkConfig
  import opened SampleFormat
  import opened BufferLookup

  /** A transfer buffer: native samples, two `int16_t` per sample. Its
      identity is the array reference, as the source's is the pointer. */
  type Buffer = array<Int16>

  /** What one pass of the producer ends with. */
  datatype WorkStatus =
    | Returned(items: nat)          // `work` returns this value
    | ProducerBlocked(consumed: nat) // parked waiting for the next slot to empty, after `consumed` samples

  /** What one call of the stream callback ends with. */
  datatype Handoff =
    | Submit(buffer: Buffer)   // the next filled buffer, for the hardware
    | NoMoreBuffers            // NULL: the stream is shutting down
    | ConsumerBlocked          // parked waiting for the next slot to be filled
    | UnknownBuffer            // the returned buffer is not in the pool: the lookup throws

  /** The slot after slot i in a ring of n slots: `(i + 1) % n`, the
      source's cursor advance (see NextSlotIsModulo). */
  function NextSlot(i: nat, n: nat): (j: nat)
    requires i < n
    ensures j < n
  {
    if i + 1 < n then i + 1 else 0
  }

  /** NextSlot is the successor modulo n. */
  lemma NextSlotIsModulo(i: nat, n: nat)
    requires i < n
    ensures NextSlot(i, n) == (i + 1) % n
  {
  }

  /** How far slot i lies after slot h going round the ring of n slots:
      the number of steps `NextSlot(x, n)` takes from h to i. */
  function Dist(i: nat, h: nat, n: nat): (d: nat)
    requires i < n && h < n
    ensures d < n
    ensures d == 0 <==> i == h
  {
    if i >= h then i - h else i + n - h
  }

  /** Advancing a cursor by one slot modulo n adds one to its distance from
      h, wrapping round to 0 after n - 1. */
  lemma DistNext(i: nat, h: nat, n: nat)
    requires i < n && h < n
    ensures Dist(NextSlot(i, n), h, n) == if Dist(i, h, n) + 1 < n then Dist(i, h, n) + 1 else 0
  {
  }

  /** Advancing the origin h by one slot modulo n takes one off every other
      slot's distance; h itself becomes the farthest slot. */
  lemma DistFromNext(i: nat, h: nat, n: nat)
    requires i < n && h < n
    ensures Dist(i, NextSlot(h, n), n) == if i == h then n - 1 else Dist(i, h, n) - 1
  {
  }

  /** The ring of n slots seen from `head`: the `inFlight` slots the engine
      holds come first, then the `ready` slots waiting for the consumer
      (whose cursor is `nextToTx`), then the producer's slot `bufIndex`,
      which is `head` again once all n slots are taken. */
  predicate RingCursors(n: nat, head: nat, inFlight: nat, ready: nat, nextToTx: nat, bufIndex: nat)
  {
    head < n && nextToTx < n && bufIndex < n && inFlight + ready <= n
    && Dist(nextToTx, head, n) == inFlight
    && Dist(bufIndex, head, n) == (if inFlight + ready == n then 0 else inFlight + ready)
  }

  /** Exactly the first `occupied` slots going round from `head` are filled. */
  predicate RingFlags(flags: seq<bool>, head: nat, occupied: nat)
  {
    head < |flags| && forall i {:trigger Dist(i, head, |flags|)} :: 0 <= i < |flags| ==> flags[i] == (Dist(i, head, |flags|) < occupied)
  }

  /** Filling the producer's slot, the first slot past the taken ones, makes
      one more slot taken. */
  lemma RingFlagsFill(flags: seq<bool>, head: nat, occupied: nat, slot: nat)
    requires RingFlags(flags, head, occupied) && occupied < |flags|
    requires slot < |flags| && Dist(slot, head, |flags|) == occupied
    ensures RingFlags(flags[slot := true], head, occupied + 1)
  {
    var n := |flags|;
    var after := flags[slot := true];
    forall i | 0 <= i < n
      ensures after[i] == (Dist(i, head, n) < occupied + 1)
    {
      if i != slot {
        assert Dist(i, head, n) != occupied;
      }
    }
  }

  /** Giving back the oldest slot, at `head`, moves the origin one slot on
      and makes one slot fewer taken. */
  lemma RingFlagsRelease(flags: seq<bool>, head: nat, occupied: nat)
    requires RingFlags(flags, head, occupied) && 0 < occupied <= |flags|
    ensures RingFlags(flags[head := false], NextSlot(head, |flags|), occupied - 1)
  {
    var n := |flags|;
    var after := flags[head := false];
    forall i | 0 <= i < n
      ensures after[i] == (Dist(i, NextSlot(head, n), n) < occupied - 1)
    {
      DistFromNext(i, head, n);
    }
  }

  /** The ring cursors after the producer's slot is filled and the producer
      moves on by one slot. */
  lemma RingCursorsFill(n: nat, head: nat, inFlight: nat, ready: nat, nextToTx: nat, bufIndex: nat)
    requires RingCursors(n, head, inFlight, ready, nextToTx, bufIndex) && inFlight + ready < n
    ensures RingCursors(n, head, inFlight, ready + 1, nextToTx, NextSlot(bufIndex, n))
  {
    DistNext(bufIndex, head, n);
  }

  /** The ring cursors after the consumer hands over a ready slot. */
  lemma RingCursorsSubmit(n: nat, head: nat, inFlight: nat, ready: nat, nextToTx: nat, bufIndex: nat)
    requires RingCursors(n, head, inFlight, ready, nextToTx, bufIndex) && 0 < ready && inFlight + 1 < n
    ensures RingCursors(n, head, inFlight + 1, ready - 1, NextSlot(nextToTx, n), bufIndex)
  {
    DistNext(nextToTx, head, n);
  }

  /** The ring cursors after the engine gives back its oldest buffer. */
  lemma RingCursorsRelease(n: nat, head: nat, inFlight: nat, ready: nat, nextToTx: nat, bufIndex: nat)
    requires RingCursors(n, head, inFlight, ready, nextToTx, bufIndex) && 0 < inFlight
    ensures RingCursors(n, NextSlot(head, n), inFlight - 1, ready, nextToTx, bufIndex)
  {
    DistFromNext(nextToTx, head, n);
    DistFromNext(bufIndex, head, n);
  }

  /** The two wait conditions on the ring: the producer's slot is filled
      exactly when every slot is taken, the consumer's slot is filled exactly
      when some slot is ready, and while the engine holds fewer than n
      buffers the producer's wait and the consumer's wait never hold at once. */
  lemma RingWaits(flags: seq<bool>, head: nat, inFlight: nat, ready: nat, nextToTx: nat, bufIndex: nat)
    requires RingCursors(|flags|, head, inFlight, ready, nextToTx, bufIndex)
    requires RingFlags(flags, head, inFlight + ready) && inFlight < |flags|
    ensures flags[bufIndex] <==> inFlight + ready == |flags|
    ensures flags[nextToTx] <==> 0 < ready
    ensures !(flags[bufIndex] && !flags[nextToTx])
  {
    assert flags[bufIndex] == (Dist(bufIndex, head, |flags|) < inFlight + ready);
    assert flags[nextToTx] == (Dist(nextToTx, head, |flags|) < inFlight + ready);
  }

  class BladerfSink {
    /** The pool allocated by the transfer engine, in slot order. */
    const buffers: seq<Buffer>
    const numBuffers: nat
    const samplesPerBuffer: nat
    /** The number of transfers the engine keeps in flight at most. */
    const transfers: nat
    /** `_filled[i]`: slot i has been written and not yet given back by the hardware. */
    const filled: array<bool>
    /** `_buf_index`: the slot the producer writes. */
    var bufIndex: nat
    /** `_next_to_tx`: the slot the consumer hands over next. */
    var nextToTx: nat
    /** `_next_value`, as an offset in `int16_t` units into `buffers[bufIndex]`. */
    var nextValue: nat
    /** `_samples_left`: samples still free in the producer's slot. */
    var samplesLeft: nat
    var running: bool
    /** The producer (`work`) is parked at its wait for a slot to empty. */
    ghost var producerWaiting: bool
    /** The consumer (the stream callback) is parked at its wait for a slot to fill. */
    ghost var consumerWaiting: bool
    /** Where the parked producer stopped: its input block and how many samples
        of it were consumed. */
    ghost var parkedInput: seq<IQ>
    ghost var parkedAt: nat
    /** Every sample the producer has consumed so far, in order. */
    ghost var written: seq<IQ>
    /** The samples written into the producer's current slot so far: the
        last ones of `written`. */
    ghost var staged: seq<IQ>
    /** How many slots the producer has filled so far; each took
        `samplesPerBuffer` samples of `written`. */
    ghost var slotsFilled: nat
    /** The slot of the oldest buffer the engine holds; the engine gives
        buffers back in the order it received them. */
    ghost var head: nat
    /** How many buffers the engine holds (handed over, not yet given back). */
    ghost var inFlight: nat
    /** How many slots are filled and not yet handed over. */
    ghost var ready: nat

    /** The fixed shape of the pool: N >= 2 distinct buffers of
        2 * samples_per_buffer values each, one flag per buffer, and between 1
        and N/2 transfers. It reads only constant fields. */
    ghost predicate Shape()
    {
      2 <= numBuffers && |buffers| == numBuffers && filled.Length == numBuffers
      && 1 <= samplesPerBuffer
      && (forall i :: 0 <= i < numBuffers ==> buffers[i].Length == 2 * samplesPerBuffer)
      && (forall i, j :: 0 <= i < j < numBuffers ==> buffers[i] != buffers[j])
      && 1 <= transfers <= numBuffers / 2
    }

    /** The producer's position: a slot of the pool, with the write position
        just past the samples already written into it. */
    ghost predicate Slots()
      reads this`bufIndex, this`nextValue, this`samplesLeft
    {
      bufIndex < numBuffers
      && samplesLeft <= samplesPerBuffer
      && nextValue == 2 * (samplesPerBuffer - samplesLeft)
    }

    /** The ring: going round from `head`, the `inFlight` slots the engine
        holds come first, then the `ready` slots waiting for the consumer
        (which starts at `nextToTx`), then the producer's slot `bufIndex`;
        exactly the slots of the first two runs are filled, and the engine
        holds at most `transfers` buffers. */
    ghost predicate Ring()
      reads this`head, this`inFlight, this`ready, this`nextToTx, this`bufIndex, filled
    {
      inFlight <= transfers
      && RingCursors(numBuffers, head, inFlight, ready, nextToTx, bufIndex)
      && RingFlags(filled[..], head, inFlight + ready)
    }

    /** Every step keeps the shape, the producer's position and the ring. */
    ghost predicate Pool()
      reads this, filled
    {
      Shape() && Slots() && Ring()
    }

    /** The producer's slot holds, up to the write position, the interleaved
        layout of the samples written into it since it was started, and those
        are the latest samples of the history; the earlier ones filled whole
        slots. */
    ghost predicate Staged()
      reads this`bufIndex, this`nextValue, this`written, this`staged, this`slotsFilled
      reads if bufIndex < |buffers| then {buffers[bufIndex]} else {}
    {
      bufIndex < |buffers| && nextValue <= buffers[bufIndex].Length
      && |staged| <= |written| && written[|written| - |staged|..] == staged
      && |written| == slotsFilled * samplesPerBuffer + |staged|
      && buffers[bufIndex][..nextValue] == Interleave(staged)
    }

    /** The state between calls: the producer's slot has room and holds what
        was written into it, and unless the producer is parked or the stream
        has stopped, that slot is unfilled; a parked consumer is inside a
        callback, so the engine holds fewer than `transfers` buffers. */
    ghost predicate Valid()
      reads this, filled
    {
      Pool()
      && 1 <= samplesLeft
      && (running && !producerWaiting ==> !filled[bufIndex])
      && (consumerWaiting ==> inFlight < transfers)
    }

    /** Between two states of the producer: a slot that was filled is still
        filled and its buffer holds the same data, so a buffer the consumer
        may have handed to the hardware is never overwritten. */
    twostate predicate FilledKept()
      reads filled, buffers
    {
      forall i :: 0 <= i < numBuffers && i < filled.Length && i < |buffers| && old(filled[i]) ==>
        filled[i] && buffers[i][..] == old(buffers[i][..])
    }

    /** The two wait conditions: the producer waits exactly when every slot is
        filled (all held by the engine or ready), the consumer waits exactly
        when no slot is ready, and the two never hold at once, so whenever
        both threads are parked, at least one of the two, when woken, goes on. */
    lemma WaitConditions()
      requires Pool()
      ensures filled[bufIndex] <==> inFlight + ready == numBuffers
      ensures !filled[nextToTx] <==> ready == 0
      ensures !(filled[bufIndex] && !filled[nextToTx])
    {
      RingWaits(filled[..], head, inFlight, ready, nextToTx, bufIndex);
    }

    /** Buffer-management part of the constructor: all slots unfilled, both
        cursors at slot 0, the write position at the start of slot 0 and the
        whole slot free; then the stream is marked running. */
    constructor (config: StreamConfig, pool: seq<Buffer>)
      requires ValidConfig(config)
      requires |pool| == config.numBuffers
      requires forall i :: 0 <= i < |pool| ==> pool[i].Length == 2 * config.samplesPerBuffer
      requires forall i, j :: 0 <= i < j < |pool| ==> pool[i] != pool[j]
      ensures Valid() && Staged() && fresh(filled)
      ensures buffers == pool && numBuffers == config.numBuffers
      ensures samplesPerBuffer == config.samplesPerBuffer && transfers == config.transfers
      ensures forall i :: 0 <= i < numBuffers ==> !filled[i]
      ensures bufIndex == 0 && nextToTx == 0
      ensures nextValue == 0 && samplesLeft == samplesPerBuffer
      ensures running && !producerWaiting && !consumerWaiting
      ensures written == [] && slotsFilled == 0 && inFlight == 0 && ready == 0
    {
      buffers := pool;
      numBuffers := config.numBuffers;
      samplesPerBuffer := config.samplesPerBuffer;
      transfers := config.transfers;
      bufIndex, nextToTx := 0, 0;
      nextValue := 0;
      samplesLeft := config.samplesPerBuffer;
      var flags := new bool[config.numBuffers];
      for i := 0 to config.numBuffers
        invariant forall j :: 0 <= j < i ==> !flags[j]
      {
        flags[i] := false;
      }
      filled := flags;
      running := true;
      producerWaiting, consumerWaiting := false, false;
      parkedInput, parkedAt, written, staged, slotsFilled := [], 0, [], [], 0;
      head, inFlight, ready := 0, 0, 0;
      assert RingFlags(flags[..], 0, 0);
      assert pool[0][..0] == Interleave([]);
    }

    /** set_running(false), from the destructor or when the stream ends. The
        flag never goes back to true. */
    method Stop()
      requires Valid()
      modifies this`running
      ensures Valid() && !running
    {
      running := false;
    }

    /** The inner loop of `work`: copy samples from `input[from..]` into the
        producer's slot until the slot is full or the input is used up. Each
        sample writes its I and then its Q at the write position, which
        advances by 2, and takes one from the free count. */
    method CopySamples(input: seq<IQ>, from: nat) returns (to: nat)
      requires Shape() && Slots() && 1 <= samplesLeft
      requires !filled[bufIndex]
      requires from <= |input|
      modifies this`nextValue, this`samplesLeft, this`written, this`staged, buffers[bufIndex]
      ensures Slots()
      ensures to == from + if old(samplesLeft) <= |input| - from then old(samplesLeft) else |input| - from
      ensures samplesLeft == old(samplesLeft) - (to - from)
      ensures nextValue == old(nextValue) + 2 * (to - from)
      ensures written == old(written) + input[from..to] && staged == old(staged) + input[from..to]
      ensures forall j :: from <= j < to ==>
        buffers[bufIndex][old(nextValue) + 2 * (j - from)] == input[j].i
        && buffers[bufIndex][old(nextValue) + 2 * (j - from) + 1] == input[j].q
      ensures forall p :: 0 <= p < buffers[bufIndex].Length && !(old(nextValue) <= p < nextValue) ==>
        buffers[bufIndex][p] == old(buffers[bufIndex][p])
      ensures buffers[bufIndex][old(nextValue)..nextValue] == Interleave(input[from..to])
      ensures buffers[bufIndex][..old(nextValue)] == old(buffers[bufIndex][..nextValue])
    {
      var slot := buffers[bufIndex];
      ghost var start := nextValue;
      var k := from;
      while samplesLeft > 0 && k < |input|
        invariant from <= k <= |input|
        invariant k - from <= old(samplesLeft)
        invariant samplesLeft == old(samplesLeft) - (k - from)
        invariant nextValue == start + 2 * (k - from)
        invariant written == old(written) && staged == old(staged)
        invariant forall j :: from <= j < k ==> slot[start + 2 * (j - from)] == input[j].i && slot[start + 2 * (j - from) + 1] == input[j].q
        invariant forall p :: 0 <= p < slot.Length && !(start <= p < nextValue) ==> slot[p] == old(slot[p])
        invariant Slots()
      {
        WriteSample(input[k]);
        k := k + 1;
      }
      to := k;
      written, staged := written + input[from..to], staged + input[from..to];
      WrittenWindowIsInterleaved(slot[..], start, input, from, to);
    }

    /** CopySamples, keeping Staged: the slot holds the layout of the samples
        staged in it before, followed by the layout of the ones just copied,
        and those are the latest samples of the history. */
    method StageSamples(input: seq<IQ>, from: nat) returns (to: nat)
      requires Shape() && Slots() && Staged() && 1 <= samplesLeft
      requires !filled[bufIndex]
      requires from <= |input|
      modifies this`nextValue, this`samplesLeft, this`written, this`staged, buffers[bufIndex]
      ensures Slots() && Staged()
      ensures to == from + if old(samplesLeft) <= |input| - from then old(samplesLeft) else |input| - from
      ensures samplesLeft == old(samplesLeft) - (to - from)
      ensures written == old(written) + input[from..to] && staged == old(staged) + input[from..to]
      ensures buffers[bufIndex][old(nextValue)..nextValue] == Interleave(input[from..to])
      ensures forall p :: 0 <= p < buffers[bufIndex].Length && !(old(nextValue) <= p < nextValue) ==>
        buffers[bufIndex][p] == old(buffers[bufIndex][p])
    {
      ghost var slot, start, before, history := buffers[bufIndex], nextValue, staged, written;
      to := CopySamples(input, from);
      StagedAppend(slot[..], start, before, input[from..to]);
      SuffixAppend(history, before, input[from..to]);
    }

    /** One pass of the inner loop of `work`: the sample's I and then its Q
        go to the write position, which advances by 2, and the slot has one
        sample less free. */
    method WriteSample(x: IQ)
      requires Shape() && Slots() && 1 <= samplesLeft
      modifies this`nextValue, this`samplesLeft, buffers[bufIndex]
      ensures Slots()
      ensures buffers[bufIndex][old(nextValue)] == x.i && buffers[bufIndex][old(nextValue) + 1] == x.q
      ensures forall p :: 0 <= p < buffers[bufIndex].Length && p != old(nextValue) && p != old(nextValue) + 1 ==>
        buffers[bufIndex][p] == old(buffers[bufIndex][p])
      ensures nextValue == old(nextValue) + 2 && samplesLeft == old(samplesLeft) - 1
    {
      buffers[bufIndex][nextValue] := x.i;
      buffers[bufIndex][nextValue + 1] := x.q;
      nextValue := nextValue + 2;
      samplesLeft := samplesLeft - 1;
    }

    /** The locked block of `work` once the slot is full: mark it filled, move
        the producer cursor to the next slot modulo N, put the write position
        at that slot's start with the whole slot free, and report whether the
        producer must now wait (the new slot is still filled and the stream
        is running). The full slot joins the ready run. */
    method AdvanceSlot() returns (mustWait: bool)
      requires Pool() && samplesLeft == 0 && !producerWaiting && !filled[bufIndex]
      requires consumerWaiting ==> inFlight < transfers
      modifies this`bufIndex, this`nextValue, this`samplesLeft, this`ready, this`producerWaiting, filled
      ensures Valid()
      ensures filled[..] == old(filled[..])[old(bufIndex) := true]
      ensures bufIndex == NextSlot(old(bufIndex), numBuffers)
      ensures nextValue == 0 && samplesLeft == samplesPerBuffer
      ensures mustWait == (filled[bufIndex] && running)
      ensures producerWaiting == mustWait
      ensures ready == old(ready) + 1
    {
      RingWaits(filled[..], head, inFlight, ready, nextToTx, bufIndex);
      RingCursorsFill(numBuffers, head, inFlight, ready, nextToTx, bufIndex);
      ghost var flags := filled[..][bufIndex := true];
      RingFlagsFill(filled[..], head, inFlight + ready, bufIndex);
      filled[bufIndex] := true;
      assert filled[..] == flags;
      bufIndex := NextSlot(bufIndex, numBuffers);
      nextValue := 0;
      samplesLeft := samplesPerBuffer;
      ready := ready + 1;
      mustWait := filled[bufIndex] && running;
      producerWaiting := mustWait;
    }

    /** AdvanceSlot, keeping Staged: nothing is staged yet in the new slot. */
    method CloseSlot() returns (mustWait: bool)
      requires Pool() && Staged() && samplesLeft == 0 && !producerWaiting && !filled[bufIndex]
      requires consumerWaiting ==> inFlight < transfers
      modifies this`bufIndex, this`nextValue, this`samplesLeft, this`ready, this`producerWaiting, this`staged, this`slotsFilled, filled
      ensures Valid() && Staged()
      ensures slotsFilled == old(slotsFilled) + 1
      ensures filled[..] == old(filled[..])[old(bufIndex) := true]
      ensures bufIndex == NextSlot(old(bufIndex), numBuffers)
      ensures nextValue == 0 && samplesLeft == samplesPerBuffer && staged == []
      ensures mustWait == (filled[bufIndex] && running)
      ensures producerWaiting == mustWait
      ensures ready == old(ready) + 1
    {
      assert |staged| == samplesPerBuffer;
      assert |written| == (slotsFilled + 1) * samplesPerBuffer;
      mustWait := AdvanceSlot();
      staged, slotsFilled := [], slotsFilled + 1;
      assert buffers[bufIndex][..nextValue] == Interleave(staged);
    }

    /** One pass of the outer loop of `work`: copy as many samples as the
        producer's slot has room for, and if that fills it, mark it filled and
        rotate to the next slot. The slot written was unfilled, so no filled
        slot's data changes. */
    method FillStep(input: seq<IQ>, from: nat) returns (to: nat, mustWait: bool)
      requires Valid() && Staged() && running && !producerWaiting && from < |input|
      modifies this`bufIndex, this`nextValue, this`samplesLeft, this`ready, this`producerWaiting, this`written, this`staged, this`slotsFilled, filled, buffers
      ensures Valid() && Staged()
      ensures to == from + if old(samplesLeft) <= |input| - from then old(samplesLeft) else |input| - from
      ensures from < to <= |input|
      ensures buffers[old(bufIndex)][old(nextValue)..old(nextValue) + 2 * (to - from)] == Interleave(input[from..to])
      ensures buffers[old(bufIndex)][..old(nextValue) + 2 * (to - from)] == Interleave(old(staged) + input[from..to])
      ensures FilledKept()
      ensures written == old(written) + input[from..to]
      ensures ready - old(ready) == slotsFilled - old(slotsFilled)
      ensures mustWait == producerWaiting
      ensures if old(samplesLeft) <= |input| - from then
          filled[old(bufIndex)] && bufIndex == NextSlot(old(bufIndex), numBuffers)
          && ready == old(ready) + 1 && samplesLeft == samplesPerBuffer
          && mustWait == filled[bufIndex]
        else
          bufIndex == old(bufIndex) && ready == old(ready)
          && samplesLeft == old(samplesLeft) - (to - from) && !mustWait
    {
      assert Ring();
      ghost var slot, start := buffers[bufIndex], nextValue;
      to := StageSamples(input, from);
      ghost var window, whole := slot[start..nextValue], slot[..nextValue];
      mustWait := false;
      if samplesLeft == 0 {
        mustWait := CloseSlot();
        assert slot[start..start + 2 * (to - from)] == window;
        assert slot[..start + 2 * (to - from)] == whole;
      }
    }

    /** The outer loop of `work`, from sample `from` on: while running and
        input remains, copy into the current slot and rotate to the next slot
        when it is full, stopping when the next slot is still filled. The
        engine's part of the ring is not touched, and neither is the data of
        a slot that was filled on entry. */
    method Fill(input: seq<IQ>, from: nat) returns (r: WorkStatus)
      requires Valid() && Staged() && !producerWaiting && from <= |input|
      modifies this`bufIndex, this`nextValue, this`samplesLeft, this`ready, this`producerWaiting, this`written, this`staged, this`slotsFilled, this`parkedInput, this`parkedAt, filled, buffers
      ensures Valid() && Staged()
      ensures ready >= old(ready) && ready - old(ready) == slotsFilled - old(slotsFilled)
      ensures FilledKept()
      ensures !running ==> r == Returned(0) && unchanged(this, filled) && unchanged(buffers)
      ensures r.Returned? ==> !producerWaiting && r.items == if running then |input| else 0
      ensures r.Returned? && running ==> written == old(written) + input[from..]
      ensures r.ProducerBlocked? ==>
        producerWaiting && running && filled[bufIndex] && from <= r.consumed <= |input|
        && samplesLeft == samplesPerBuffer
        && written == old(written) + input[from..r.consumed]
        && parkedInput == input && parkedAt == r.consumed
    {
      // `running` only changes while the producer is parked, so a stopped
      // stream skips the loop and returns 0.
      if !running {
        return Returned(0);
      }
      var k := from;
      var mustWait := false;
      while k < |input| && !mustWait
        invariant Valid() && Staged() && producerWaiting == mustWait
        invariant from <= k <= |input|
        invariant ready >= old(ready) && ready - old(ready) == slotsFilled - old(slotsFilled)
        invariant FilledKept()
        invariant written == old(written) + input[from..k]
        invariant mustWait ==> filled[bufIndex] && samplesLeft == samplesPerBuffer
        decreases |input| - k, if mustWait then 0 else 1
      {
        ghost var k0, before := k, written;
        k, mustWait := FillStep(input, k);
        HistoryExtends(old(written), before, written, input, from, k0, k);
      }
      if mustWait {
        parkedInput, parkedAt := input, k;
        return ProducerBlocked(k);
      }
      return Returned(|input|);
    }

    /** `work(noutput_items)` on a block of input samples: returns
        noutput_items when it ends running, having consumed the whole block,
        0 when the stream has stopped (also after a partial copy), or parks at
        the wait for a slot. */
    method Work(input: seq<IQ>) returns (r: WorkStatus)
      requires Valid() && Staged() && !producerWaiting
      modifies this`bufIndex, this`nextValue, this`samplesLeft, this`ready, this`producerWaiting, this`written, this`staged, this`slotsFilled, this`parkedInput, this`parkedAt, filled, buffers
      ensures Valid() && Staged()
      ensures ready >= old(ready) && ready - old(ready) == slotsFilled - old(slotsFilled)
      ensures FilledKept()
      ensures !running ==> r == Returned(0) && unchanged(this, filled) && unchanged(buffers)
      ensures r.Returned? ==> !producerWaiting && r.items == if running then |input| else 0
      ensures r.Returned? && running ==> written == old(written) + input
      ensures r.ProducerBlocked? ==>
        producerWaiting && running && filled[bufIndex] && r.consumed <= |input|
        && samplesLeft == samplesPerBuffer
        && written == old(written) + input[..r.consumed]
        && parkedInput == input && parkedAt == r.consumed
    {
      assert input[0..] == input;
      r := Fill(input, 0);
    }

    /** The producer wakes at its wait, where it parked after `consumed`
        samples of `input`: it re-reads the running flag and waits on while
        its slot is still filled and the stream runs; otherwise it carries on
        with the rest. */
    method ProducerWake(input: seq<IQ>, consumed: nat) returns (r: WorkStatus)
      requires Valid() && Staged() && producerWaiting && consumed <= |input|
      requires input == parkedInput && consumed == parkedAt
      modifies this`bufIndex, this`nextValue, this`samplesLeft, this`ready, this`producerWaiting, this`written, this`staged, this`slotsFilled, this`parkedInput, this`parkedAt, filled, buffers
      ensures Valid() && Staged()
      ensures ready >= old(ready) && ready - old(ready) == slotsFilled - old(slotsFilled)
      ensures FilledKept()
      ensures !running ==>
        r == Returned(0) && !producerWaiting && unchanged(filled) && unchanged(buffers)
        && unchanged(this`written, this`staged, this`slotsFilled, this`bufIndex, this`nextValue, this`samplesLeft, this`ready)
      ensures old(filled[bufIndex]) && running ==>
        r == ProducerBlocked(consumed) && unchanged(this, filled) && unchanged(buffers)
      ensures r.Returned? ==> !producerWaiting && r.items == if running then |input| else 0
      ensures r.Returned? && running ==> written == old(written) + input[consumed..]
      ensures r.ProducerBlocked? ==>
        producerWaiting && running && filled[bufIndex] && consumed <= r.consumed <= |input|
        && written == old(written) + input[consumed..r.consumed]
        && parkedInput == input && parkedAt == r.consumed
    {
      if filled[bufIndex] && running {
        assert input[consumed..consumed] == [];
        return ProducerBlocked(consumed);
      }
      producerWaiting := false;
      if !running {
        return Returned(0);
      }
      assert Valid() && Staged();
      assert forall i :: 0 <= i < |buffers| ==> buffers[i][..] == old(buffers[i][..]);
      r := Fill(input, consumed);
    }

    /** Second half of the stream callback: wait while the next slot to hand
        over is unfilled and the stream runs; if running, hand over that slot's
        buffer and advance the consumer cursor modulo N, otherwise hand over
        NULL. A handed-over slot moves from the ready run to the engine. */
    method Handover() returns (r: Handoff)
      requires Valid() && !consumerWaiting && inFlight < transfers
      modifies this`nextToTx, this`consumerWaiting, this`inFlight, this`ready
      ensures Valid()
      ensures if !running then r == NoMoreBuffers && nextToTx == old(nextToTx) && !consumerWaiting
        else if !filled[old(nextToTx)] then r == ConsumerBlocked && nextToTx == old(nextToTx) && consumerWaiting
        else r == Submit(buffers[old(nextToTx)]) && nextToTx == NextSlot(old(nextToTx), numBuffers) && !consumerWaiting
      ensures if r.Submit? then inFlight == old(inFlight) + 1 && ready == old(ready) - 1
        else inFlight == old(inFlight) && ready == old(ready)
    {
      if running && !filled[nextToTx] {
        consumerWaiting := true;
        return ConsumerBlocked;
      }
      if running {
        RingWaits(filled[..], head, inFlight, ready, nextToTx, bufIndex);
        RingCursorsSubmit(numBuffers, head, inFlight, ready, nextToTx, bufIndex);
        r := Submit(buffers[nextToTx]);
        nextToTx := NextSlot(nextToTx, numBuffers);
        inFlight, ready := inFlight + 1, ready - 1;
      } else {
        r := NoMoreBuffers;
      }
    }

    /** First half of the stream callback: a buffer the engine gives back
        has its slot marked unfilled, so it leaves the engine's run; no other
        flag changes. NULL gives nothing back. A buffer that is not in the
        pool is reported and nothing changes. */
    method MarkEmptied(samples: array?<Int16>) returns (known: bool)
      requires Valid() && !consumerWaiting
      requires samples != null && samples in buffers ==> 0 < inFlight && samples == buffers[head]
      modifies this`head, this`inFlight, filled
      ensures Valid()
      ensures known <==> samples == null || samples in buffers
      ensures !known || samples == null ==> unchanged(this, filled)
      ensures known ==> forall i :: 0 <= i < numBuffers ==> filled[i] == (old(filled[i]) && samples != buffers[i])
      ensures known && samples != null ==> head == NextSlot(old(head), numBuffers) && inFlight == old(inFlight) - 1
    {
      if samples == null {
        return true;
      }
      var index := BufferToIndex(buffers, samples);
      if index.None? {
        return false;
      }
      RingCursorsRelease(numBuffers, head, inFlight, ready, nextToTx, bufIndex);
      RingFlagsRelease(filled[..], head, inFlight + ready);
      filled[index.value] := false;
      head, inFlight := NextSlot(head, numBuffers), inFlight - 1;
      known := true;
    }

    /** `get_next_buffer(samples)`: the returned buffer is marked emptied
        (see MarkEmptied), then the next filled buffer is handed over (see
        Handover). A buffer that is not in the pool stops the call with
        nothing changed. The engine's side of the contract: it starts a new
        transfer (`samples` NULL) only while it holds fewer than `transfers`
        buffers, and gives a pool buffer back only when it is the oldest one
        it holds. */
    method GetNextBuffer(samples: array?<Int16>) returns (r: Handoff)
      requires Valid() && !consumerWaiting
      requires samples == null ==> inFlight < transfers
      requires samples != null && samples in buffers ==> 0 < inFlight && samples == buffers[head]
      modifies this`nextToTx, this`consumerWaiting, this`head, this`inFlight, this`ready, filled
      ensures Valid()
      ensures r == UnknownBuffer <==> samples != null && samples !in buffers
      ensures r == UnknownBuffer ==> unchanged(this, filled)
      ensures r != UnknownBuffer ==>
        forall i :: 0 <= i < numBuffers ==> filled[i] == (old(filled[i]) && samples != buffers[i])
      ensures r != UnknownBuffer ==>
        if !running then r == NoMoreBuffers && nextToTx == old(nextToTx) && !consumerWaiting
        else if !filled[old(nextToTx)] then r == ConsumerBlocked && nextToTx == old(nextToTx) && consumerWaiting
        else r == Submit(buffers[old(nextToTx)]) && nextToTx == NextSlot(old(nextToTx), numBuffers) && !consumerWaiting
    {
      var known := MarkEmptied(samples);
      if !known {
        return UnknownBuffer;
      }
      r := Handover();
    }

    /** The consumer wakes at its wait: it re-checks the wait condition and
        hands over as in Handover. */
    method ConsumerWake() returns (r: Handoff)
      requires Valid() && consumerWaiting
      modifies this`nextToTx, this`consumerWaiting, this`inFlight, this`ready
      ensures Valid()
      ensures if !running then r == NoMoreBuffers && nextToTx == old(nextToTx) && !consumerWaiting
        else if !filled[old(nextToTx)] then r == ConsumerBlocked && nextToTx == old(nextToTx) && consumerWaiting
        else r == Submit(buffers[old(nextToTx)]) && nextToTx == NextSlot(old(nextToTx), numBuffers) && !consumerWaiting
      ensures if r.Submit? then inFlight == old(inFlight) + 1 && ready == old(ready) - 1
        else inFlight == old(inFlight) && ready == old(ready)
    {
      consumerWaiting := false;
      r := Handover();
    }
  }

  /** The shutdown sequence of the destructor: clear the running flag, then
      wake both waits. A producer parked in `work` returns 0 and a consumer
      parked in the stream callback hands over NULL; neither stays blocked,
      and neither touches the pool, the ring or the history on its way out.
      The two flags say which thread is parked, as the scheduler knows. */
  method ShutDown(sink: BladerfSink, input: seq<IQ>, consumed: nat, producerParked: bool, consumerParked: bool)
    returns (callback: Option<Handoff>, work: Option<WorkStatus>)
    requires sink.Valid() && sink.Staged() && consumed <= |input|
    requires producerParked == sink.producerWaiting && consumerParked == sink.consumerWaiting
    requires producerParked ==> input == sink.parkedInput && consumed == sink.parkedAt
    modifies sink`running, sink`bufIndex, sink`nextValue, sink`samplesLeft, sink`ready, sink`producerWaiting
    modifies sink`written, sink`staged, sink`slotsFilled, sink`parkedInput, sink`parkedAt, sink.filled, sink.buffers
    modifies sink`nextToTx, sink`consumerWaiting, sink`inFlight
    ensures sink.Valid() && !sink.running
    ensures !sink.producerWaiting && !sink.consumerWaiting
    ensures unchanged(sink.filled) && unchanged(sink.buffers)
    ensures unchanged(sink`written, sink`staged, sink`slotsFilled, sink`bufIndex, sink`nextValue, sink`samplesLeft)
    ensures unchanged(sink`nextToTx, sink`inFlight, sink`ready)
    ensures work == if producerParked then Some(Returned(0)) else None
    ensures callback == if consumerParked then Some(NoMoreBuffers) else None
  {
    sink.Stop();
    callback := NotifyConsumer(sink, consumerParked);
    work := NotifyProducer(sink, input, consumed, producerParked);
  }

  /** `_buffer_emptied.notify_all()` once the stream has stopped: a producer
      parked in `work` leaves its wait and returns 0, changing nothing else;
      with no producer parked nothing happens. */
  method NotifyProducer(sink: BladerfSink, input: seq<IQ>, consumed: nat, parked: bool) returns (work: Option<WorkStatus>)
    requires sink.Valid() && sink.Staged() && !sink.running && parked == sink.producerWaiting && consumed <= |input|
    requires parked ==> input == sink.parkedInput && consumed == sink.parkedAt
    modifies sink`bufIndex, sink`nextValue, sink`samplesLeft, sink`ready, sink`producerWaiting
    modifies sink`written, sink`staged, sink`slotsFilled, sink`parkedInput, sink`parkedAt, sink.filled, sink.buffers
    ensures sink.Valid() && !sink.running && !sink.producerWaiting
    ensures work == if parked then Some(Returned(0)) else None
    ensures unchanged(sink.filled) && unchanged(sink.buffers)
    ensures unchanged(sink`written, sink`staged, sink`slotsFilled, sink`bufIndex, sink`nextValue, sink`samplesLeft, sink`ready)
  {
    work := None;
    if parked {
      var r := sink.ProducerWake(input, consumed);
      work := Some(r);
    }
  }

  /** `_samp_avail.notify_all()` once the stream has stopped: a consumer
      parked in the stream callback leaves its wait and hands over NULL,
      leaving the ring as it was; with no consumer parked nothing happens. */
  method NotifyConsumer(sink: BladerfSink, parked: bool) returns (callback: Option<Handoff>)
    requires sink.Valid() && !sink.running && parked == sink.consumerWaiting
    modifies sink`nextToTx, sink`consumerWaiting, sink`inFlight, sink`ready
    ensures sink.Valid() && !sink.running && !sink.consumerWaiting
    ensures callback == if parked then Some(NoMoreBuffers) else None
    ensures unchanged(sink`nextToTx, sink`inFlight, sink`ready)
  {
    callback := None;
    if parked {
      var r := sink.ConsumerWake();
      callback := Some(r);
    }
  }

  /** Two chunks appended one after the other to a history are the one chunk
      spanning both. */
  lemma HistoryExtends<T>(h0: seq<T>, h1: seq<T>, h2: seq<T>, s: seq<T>, a: nat, b: nat, c: nat)
    requires a <= b <= c <= |s|
    requires h1 == h0 + s[a..b] && h2 == h1 + s[b..c]
    ensures h2 == h0 + s[a..c]
  {
    assert s[a..c] == s[a..b] + s[b..c];
  }

  /** A window whose even positions hold the I parts and whose odd
      positions hold the Q parts of `input[from..to]` is their interleaved layout. */
  lemma WrittenWindowIsInterleaved(slot: seq<Int16>, start: nat, input: seq<IQ>, from: nat, to: nat)
    requires from <= to <= |input| && start + 2 * (to - from) <= |slot|
    requires forall j :: from <= j < to ==>
      slot[start + 2 * (j - from)] == input[j].i && slot[start + 2 * (j - from) + 1] == input[j].q
    ensures slot[start..start + 2 * (to - from)] == Interleave(input[from..to])
  {
    var xs := input[from..to];
    var w := Interleave(xs);
    forall p | 0 <= p < |w|
      ensures slot[start + p] == w[p]
    {
      var j := p / 2;
      InterleaveAt(xs, j);
      assert xs[j] == input[from + j];
      assert p == 2 * j || p == 2 * j + 1;
    }
  }

  /** Dropping a prefix of the first part of a concatenation. */
  lemma DropAppend<T>(a: seq<T>, b: seq<T>, k: nat)
    requires k <= |a|
    ensures (a + b)[k..] == a[k..] + b
  {
  }

  /** A prefix of a slot splits at any point inside it. */
  lemma TakeSplit<T>(s: seq<T>, m: nat, n: nat)
    requires m <= n <= |s|
    ensures s[..n] == s[..m] + s[m..n]
  {
  }

  /** Appending the same chunk to the history and to one of its suffixes
      leaves a suffix. */
  lemma SuffixAppend<T>(w: seq<T>, s: seq<T>, c: seq<T>)
    requires |s| <= |w| && w[|w| - |s|..] == s
    ensures |s + c| <= |w + c| && (w + c)[|w + c| - |s + c|..] == s + c
  {
    DropAppend(w, c, |w| - |s|);
  }

  /** Writing a chunk's layout just past the layout of the staged samples
      lays out the staged samples followed by the chunk. */
  lemma StagedAppend(slot: seq<Int16>, nv: nat, staged: seq<IQ>, chunk: seq<IQ>)
    requires nv + 2 * |chunk| <= |slot|
    requires slot[..nv] == Interleave(staged)
    requires slot[nv..nv + 2 * |chunk|] == Interleave(chunk)
    ensures slot[..nv + 2 * |chunk|] == Interleave(staged + chunk)
  {
    var n := nv + 2 * |chunk|;
    TakeSplit(slot, nv, n);
    InterleaveAppend(staged, chunk);
    calc {
      slot[..n];
      == slot[..nv] + slot[nv..n];
      == Interleave(staged) + Interleave(chunk);
      == Interleave(staged + chunk);
    }
  }
}
